=== FILE: README.md ===
# Guides page loader — a Dafny model

The Guides site is a static documentation site. One script renders Markdown
pages chosen by a `?page=` query parameter. A page may name a companion
"guide" with a `=GUIDE: path` directive line. The guide is rendered in a side
panel, and its relative links are turned into `?page=` navigation links.
Previous/next buttons cycle through a fixed list of known pages, and code
blocks get one "Copy" button each.

This project models that loader as pure functions:

- `Pages`: the page parameter and its default. Also the index of the current
  page, and the cyclic previous/next navigation over `index`, `about` and
  `contact`.
- `Strings`: the JavaScript string operations the loader relies on.
  - `indexOf`;
  - `replace` with a string pattern, which replaces the first occurrence only;
  - `trim`, with the full JavaScript white-space and line-terminator set.
- `Directive`: the multiline regular expression `^=GUIDE:\s*(.*)$`.
  - A line start is the start of the text or any of the four JavaScript line
    terminators (LF, CR, U+2028, U+2029).
  - `\s*` is greedy and may cross line breaks. `.` stops at a line terminator.
  - Extraction deletes the first occurrence of the matched text and trims the
    captured guide path.
- `Links`: link rewriting.
  - In the guide panel, a non-`http` link becomes `?page=` + the encoded link,
    with at most one leading `./` or `../` removed. An `http` link opens in a
    new tab.
  - In the main content, only `http` links are touched: they open in a new tab.
- `Loader`: `loadPage` as a function of the page name and of what fetching a
  path yields. It returns either the not-found outcome or the remaining page
  text together with the state of the guide panel.
- `CopyButtons`: the copy-button pass as a loop over the code blocks of the
  rendered content. Its reference definition says which `pre` elements gain a
  button and which code blocks get highlighted. The pass is idempotent.

Fetching is a parameter `fetch: string -> Option<string>`. `None` stands for a
failed request or a non-OK response; the script turns both into `null`.
`encodeURIComponent` is a parameter `enc: string -> string`.

Points where the code's behaviour is easy to misread:

- If the guide file cannot be loaded, or is empty, the guide panel is left as
  it was (`Untouched`). It is cleared only when the page has no directive or
  the page itself is missing.
- Only one leading `./` or `../` is stripped from a guide link (`./../x`
  becomes `../x`).
- The script deletes the first occurrence of the matched directive text. That
  occurrence can lie earlier than the directive line itself, in which case the
  directive line stays in the content (`Directive.EarlierOccurrence`).
- When the capture is non-empty, the line break that ends it stays. Line
  breaks inside the blank run after the colon are deleted with the directive
  (`Directive.BlanksCrossLines`).
- An empty page file counts as "not found", just like a failed fetch.
- An empty `?page=` value falls back to `index`, just like a missing one.
- An unknown page name is fetched as given. Only the navigation index falls
  back to the first page.
- A `pre` that already carries a copy button is skipped entirely, so its code
  block is not highlighted again.

## Model

| member | source | states |
|---|---|---|
| Pages.PageParam | script.js:7-10 | a present, non-empty `page` value is used as is; a missing or empty one yields `index`; the result is never empty |
| Pages.IndexIn | script.js:88 | `indexOf` is -1 exactly when the name is not in the list; otherwise it is the position of the first equal element |
| Pages.CurrentIndex | script.js:86-90 | the index is always a valid position; a known page maps to its own position; an unknown page maps to position 0 |
| Pages.Next | script.js:105 | the next index stays in range, is one more than the current one, and wraps from the last page to the first |
| Pages.Prev | script.js:99 | the previous index stays in range, is one less than the current one, and wraps from the first page to the last |
| Pages.NextPage | script.js:103-107 | the next button always leads to a known page, and there the navigation index is one step further (wrapping) |
| Pages.PrevPage | script.js:97-101 | the previous button always leads to a known page, and there the navigation index is one step back (wrapping) |
| Pages.CurrentIndexOfKnown | script.js:86-90 | each known page name is found at its own position |
| Pages.PageQuery | script.js:100 | the navigation query is `?page=` followed by exactly the encoded page name |
| Pages.KnownPagesDistinct | script.js:2 | the known page names are pairwise distinct, so `indexOf` identifies each page |
| Pages.PrevNextInverse | script.js:97-107 | previous undoes next and next undoes previous on every valid index |
| Pages.NextIterIsShift | script.js:103-107 | pressing next k times moves k positions forward, modulo the number of pages |
| Pages.NextCycle | script.js:103-107 | pressing next once per known page returns to the starting page |
| Pages.NextThenPrevReturns | script.js:86-107 | going to the next page and then back lands on the current page, and the other way round |
| Pages.UnknownPageIsFirst | script.js:86-90 | a page name outside the list navigates as if it were the first page |
| Strings.IndexFrom | script.js:57 | the search from a position finds the first occurrence at or after it, or reports that there is none |
| Strings.IndexOf | script.js:57 | an occurrence is found exactly when the pattern occurs; the one found is the earliest |
| Strings.ReplaceFirst | script.js:57 | text without the pattern is unchanged; otherwise the length changes by the replacement's length minus the pattern's |
| Strings.ReplaceFirstAt | script.js:57 | replacing splices the replacement in at the first occurrence and keeps both sides |
| Strings.IsJsSpace | script.js:54 | the blank set of `\s` and `trim`: the ECMAScript WhiteSpace and LineTerminator characters |
| Strings.SkipBlanks | script.js:54 | the greedy `\s*` consumes exactly the maximal run of white space and line terminators |
| Strings.SkipBlanksBack | script.js:58 | scanning backwards from a position passes only blanks and stops after a character that is not blank, or at the lower bound |
| Strings.Trim | script.js:58 | the trimmed text is a slice with only blanks around it; it neither starts nor ends with a blank |
| Strings.TrimUnchanged | script.js:58 | text that neither starts nor ends with a blank is left as it is |
| Strings.TrimIdempotent | script.js:58 | trimming twice is the same as trimming once |
| Directive.LineStart | script.js:54 | `^` under the `m` flag holds at the start of the text and right after any line terminator |
| Directive.DirectiveAt | script.js:54 | a match can begin exactly where a line starts with `=GUIDE:` |
| Directive.LineEnd | script.js:54 | `.*` stops at the first line terminator or at the end of the text |
| Directive.MatchAt | script.js:54 | a match at a directive start covers the marker, then only blanks, then a capture that does not start with a blank and holds no line terminator, ending at a line end; an empty capture only at the end of the text, since the greedy blank run takes any line break |
| Directive.FindFrom | script.js:54 | the scan returns the first directive at or after its position, or none |
| Directive.FindDirective | script.js:54 | the regular expression fails exactly when no line starts with `=GUIDE:`; otherwise it matches at the first such line |
| Directive.Extract | script.js:54-58 | without a directive the text is kept whole with no guide; with one, the guide path is the trimmed capture and the content is shorter by the matched text |
| Directive.ExtractDeletesFirstOccurrence | script.js:57 | the content is the page text with the first occurrence of the matched text cut out; that occurrence is never after the directive |
| Directive.ExtractDeletesDirective | script.js:57 | when the matched text occurs nowhere before the directive, exactly the directive's text is cut out |
| Directive.GuidePathShape | script.js:54-58 | the guide path is a single line with no blanks at either end |
| Directive.MatchAtIs | script.js:54 | at a directive start followed by given blanks and a one-line path that is non-empty or ends the text, the match has exactly those parts (an empty path followed by a line break is not a match: the blank run swallows the break) |
| Directive.FindDirectiveIs | script.js:54 | the first directive found is the one at the first position where a directive starts |
| Directive.ExtractIs | script.js:54-58 | extraction of a page with a known first directive and first occurrence gives exactly that content and trimmed path |
| Directive.FirstLineMatch | script.js:54 | a text that opens with the marker, blanks and a one-line path, where the path is non-empty or ends the text, matches at position 0 with exactly those parts |
| Directive.FirstLineDirective | script.js:54-58 | a directive on the first line whose path is non-empty or ends the text is removed up to the line break that ends the path, that line break stays, and its trimmed path is the guide |
| Directive.ExtractExample | script.js:54-58 | `=GUIDE: other.md` followed by `Hello` on the next line gives content `\nHello` and guide `other.md` |
| Directive.BlanksCrossLines | script.js:54 | `=GUIDE:\nfoo`: the blank run crosses the line break, so the next non-blank line, `foo`, is the guide path, and everything up to its end is removed |
| Directive.EarlierOccurrence | script.js:54-57 | if the directive's text also appears inside an earlier line, that earlier copy is deleted and the directive line stays |
| Directive.SecondLineMatch | script.js:54 | in a two-line text whose second line is a directive line ending the text and whose first line, of any length and possibly empty, does not open with the marker, the second line is the match |
| Links.IsExternal | script.js:64 | a link is external exactly when its href starts with the literal, case-sensitive `http` |
| Links.HrefOf | script.js:63 | a missing `href` attribute reads as the empty string |
| Links.StripRelativePrefix | script.js:65 | one leading `./` or `../` is removed; any other text is left alone |
| Links.RewriteGuideAnchor | script.js:62-69 | an `http` link keeps its href and opens in a new tab; any other link becomes `?page=` + the encoded, stripped link and keeps its target |
| Links.RewriteGuideAnchors | script.js:62-69 | every guide link is rewritten on its own, and no link is added or dropped |
| Links.MarkMainAnchor | script.js:77-80 | a content link keeps its href; an `http` link opens in a new tab; any other link is untouched |
| Links.MarkMainAnchors | script.js:77-80 | every content link is marked on its own, and no link is added or dropped |
| Links.MainAnchorsKeepHrefs | script.js:77-80 | marking the content links never changes an href; a link opens in a new tab exactly when it is external or already did; marking twice is the same as marking once |
| Links.GuideAnchorsRewritten | script.js:62-69 | after the rewrite every non-`http` guide link points to a `?page=` query, and every `http` link opens in a new tab |
| Links.StripOnce | script.js:65 | only one prefix is stripped: `./../x` becomes `../x` and `../../x` becomes `../x` |
| Links.ExternalIsPrefixOnly | script.js:64 | "external" means a literal, case-sensitive `http` prefix: `httpfoo` counts, while `HTTPS://`, `//cdn` and `mailto:` do not |
| Links.GuideLinkExamples | script.js:63-67 | `./other` becomes `?page=` + the encoded `other`; an `https` link gets a new-tab target; a link with no href becomes `?page=` + the encoded empty string |
| Loader.Truthy | script.js:46 | a fetched text counts only when it is present and not empty, as `!mdText` and `if (guideText)` test it |
| Loader.GuideAfter | script.js:49 | a missing page leaves the guide panel cleared; a loaded page leaves it as the load decided |
| Loader.MarkdownPath | script.js:45 | the page file is `pages/`, then the page name, then `.md` |
| Loader.NotFoundHtml | script.js:47-48 | the not-found message shows the page name and the expected `/pages/<name>.md` path |
| Loader.LoadPage | script.js:44-83 | the outcome is "not found" exactly when the page fetch is null or empty; otherwise the content is the page text with the first occurrence of the matched directive text deleted (`Directive.Extract`) |
| Loader.GuidePanelCases | script.js:46-73 | the guide panel is cleared exactly when the page is missing or has no directive; it shows the guide exactly when the guide fetch gives text; otherwise it is left alone |
| Loader.NoDirectiveKeepsText | script.js:55-56 | a page without a directive is rendered whole and clears the guide panel |
| Loader.EmptyPageIsNotFound | script.js:46 | an empty page file is reported as not found |
| Loader.LoadExample | script.js:44-61 | a page directing to `other.md`, which holds `World`, renders `\nHello` with the guide `World` |
| Loader.MissingPage | script.js:46-50 | a missing page yields the not-found message, which names the page and its path, and clears the guide |
| CopyButtons.AddCopyButtons | script.js:24-41 | the loop gives each undecorated `pre` one positioned button, and highlights a code block only on the first visit to its undecorated `pre` |
| CopyButtons.DecoratedKeepsShape | script.js:25-38 | decorating adds no elements, and changes no code block's parent |
| CopyButtons.DecoratedButtons | script.js:27-38 | afterwards every code block's `pre` has at least one button; no `pre` that had at most one button gets more than one |
| CopyButtons.DecorateIdempotent | script.js:27 | running the pass again changes nothing |
| CopyButtons.FreshRender | script.js:25-39 | on freshly rendered content a `pre` gets exactly one button exactly when it holds code, and a code block is highlighted once exactly when it is the first in its `pre` |

## Left out

- Network access: `loadMarkdown` (script.js:13-21) is the `fetch` parameter. `None` covers both a thrown request and a non-OK status.
- Markdown rendering (`marked.parse`) and syntax highlighting (`hljs.highlightElement`) are outside the model. The outcome carries the Markdown text, and a highlight is only counted.
- The DOM is not modelled. The links a render produces are given as a sequence of anchors, and the code blocks as a list of `pre` and `code` records.
- Pages.PageQuery: `encodeURIComponent` is the parameter `enc`. The percent-encoding of section 19.2.6.5 of ECMA-262 is not modelled.
- Pages.NextThenPrevReturns: assumes that the browser's query parsing hands back the page name that `enc` encoded. For the three known names, which are plain lower-case letters, encoding changes nothing.
- Reading `location.href` and parsing the query (script.js:8-9) are left out. The value of the `page` parameter is the `Option<string>` input.
- Assigning `location.search`, which reloads the page, and the initial-load glue (script.js:114-115) are left out. These are navigation, not computation.
- Clicking a copy button (clipboard write, `Copied!` label, 1.5 s timer) is left out. It is browser I/O with a clock.
- The theme toggle (script.js:109-111) only flips a CSS class.
- Concurrency is left out. Overlapping `loadPage` calls and the order of the asynchronous steps are not modelled; each call is taken as one atomic step.
- Code blocks are taken to be direct children of their `pre`, as rendered Markdown produces them. A `code` nested deeper, for example in raw HTML, would get its button on its nearer parent.
- JavaScript strings are UTF-16 code units. A Dafny `string` holds Unicode scalar values, so lone surrogates cannot be represented.

=== FILE: copybuttons.dfy ===
/** `addCopyButtons`: every code block of the content panel whose `pre`
    block has no copy button yet gets one (and the `pre` is positioned for
    it), and that code block is highlighted; a code block whose `pre`
    already carries a button is skipped entirely, highlighting included.
    The button's click handler, the clipboard and the label timer are not
    modelled. */
module CopyButtons {

  /** A `pre` block: how many copy buttons it holds and whether it has been
      given relative positioning. */
  datatype Pre = Pre(copyButtons: nat, positioned: bool)

  /** A `code` block: the index of its parent element, a `pre`, and how
      many times it has been highlighted. */
  datatype Code = Code(pre: nat, highlights: nat)

  /** The content panel: its `pre` blocks and its `pre code` blocks, in
      document order. */
  datatype Content = Content(pres: seq<Pre>, codes: seq<Code>)

  predicate WellFormed(c: Content) {
    forall k :: 0 <= k < |c.codes| ==> c.codes[k].pre < |c.pres|
  }

  /** Some of the first `n` code blocks sits in `pre` block `p`. */
  predicate SeenBefore(c: Content, p: nat, n: nat)
    requires n <= |c.codes|
  {
    exists j :: 0 <= j < n && c.codes[j].pre == p
  }

  /** What the first `n` steps of the walk have done: a `pre` that had no
      button and holds one of those code blocks has exactly one button; a
      code block among them is highlighted once more when its `pre` had no
      button and it is the first code block of that `pre`. */
  ghost function DecoratedUpTo(c: Content, n: nat): (r: Content)
    requires WellFormed(c) && n <= |c.codes|
    ensures |r.pres| == |c.pres| && |r.codes| == |c.codes|
  {
    Content(
      seq(|c.pres|, p requires 0 <= p < |c.pres| =>
        if c.pres[p].copyButtons == 0 && SeenBefore(c, p, n)
        then Pre(1, true) else c.pres[p]),
      seq(|c.codes|, k requires 0 <= k < |c.codes| =>
        if k < n && c.pres[c.codes[k].pre].copyButtons == 0 && !SeenBefore(c, c.codes[k].pre, k)
        then c.codes[k].(highlights := c.codes[k].highlights + 1) else c.codes[k]))
  }

  /** The effect of a whole `addCopyButtons` pass. */
  ghost function Decorated(c: Content): Content
    requires WellFormed(c)
  {
    DecoratedUpTo(c, |c.codes|)
  }

  /** Lines 24-41: walk the code blocks in order; skip one whose `pre`
      already has a button, otherwise add a button, position the `pre` and
      highlight the code block. */
  method AddCopyButtons(c: Content) returns (r: Content)
    requires WellFormed(c)
    ensures r == Decorated(c)
  {
    var pres := c.pres;
    var codes := c.codes;
    var k := 0;
    while k < |codes|
      invariant 0 <= k <= |c.codes|
      invariant Content(pres, codes) == DecoratedUpTo(c, k)
    {
      var p := codes[k].pre;
      assert p == c.codes[k].pre;
      if pres[p].copyButtons == 0 {
        assert !SeenBefore(c, p, k) && c.pres[p].copyButtons == 0;
        pres := pres[p := pres[p].(copyButtons := pres[p].copyButtons + 1, positioned := true)];
        codes := codes[k := codes[k].(highlights := codes[k].highlights + 1)];
      } else {
        assert c.pres[p].copyButtons > 0 || SeenBefore(c, p, k);
      }
      assert SeenBefore(c, p, k + 1);
      assert Content(pres, codes) == DecoratedUpTo(c, k + 1);
      k := k + 1;
    }
    r := Content(pres, codes);
  }

  /** A pass keeps the document's shape: the same blocks, in the same `pre`
      blocks. */
  lemma DecoratedKeepsShape(c: Content)
    requires WellFormed(c)
    ensures var r := Decorated(c);
      && |r.pres| == |c.pres| && |r.codes| == |c.codes|
      && (forall k :: 0 <= k < |c.codes| ==> r.codes[k].pre == c.codes[k].pre)
      && WellFormed(r)
  {
  }

  /** After a pass every `pre` that holds a code block has a button, and
      no `pre` that had at most one button has more. */
  lemma DecoratedButtons(c: Content)
    requires WellFormed(c)
    ensures var r := Decorated(c);
      && (forall k :: 0 <= k < |c.codes| ==> r.pres[c.codes[k].pre].copyButtons >= 1)
      && (forall p :: 0 <= p < |c.pres| && c.pres[p].copyButtons <= 1 ==> r.pres[p].copyButtons <= 1)
  {
    var r := Decorated(c);
    forall k | 0 <= k < |c.codes|
      ensures r.pres[c.codes[k].pre].copyButtons >= 1
    {
      assert SeenBefore(c, c.codes[k].pre, |c.codes|);
    }
  }

  /** Running the decoration a second time changes nothing: no block gets a
      second button and no block is highlighted again. */
  lemma DecorateIdempotent(c: Content)
    requires WellFormed(c)
    ensures WellFormed(Decorated(c))
    ensures Decorated(Decorated(c)) == Decorated(c)
  {
    var r := Decorated(c);
    DecoratedKeepsShape(c);
    DecoratedButtons(c);
    var r2 := Decorated(r);
    assert forall p :: 0 <= p < |r.pres| ==> r2.pres[p] == r.pres[p];
    forall k | 0 <= k < |r.codes|
      ensures r2.codes[k] == r.codes[k]
    {
      assert r.pres[c.codes[k].pre].copyButtons >= 1;
    }
  }

  /** On a freshly rendered panel (no buttons anywhere) each `pre` that holds
      code gets exactly one button, and a code block is highlighted exactly
      once when it is the first of its `pre`, and not at all otherwise. */
  lemma FreshRender(c: Content)
    requires WellFormed(c)
    requires forall p :: 0 <= p < |c.pres| ==> c.pres[p] == Pre(0, false)
    requires forall k :: 0 <= k < |c.codes| ==> c.codes[k].highlights == 0
    ensures var r := Decorated(c);
      && (forall p :: 0 <= p < |c.pres| ==>
            (r.pres[p] == Pre(1, true) <==> SeenBefore(c, p, |c.codes|)))
      && (forall k :: 0 <= k < |c.codes| ==>
            (r.codes[k].highlights == 1 <==> !SeenBefore(c, c.codes[k].pre, k)))
      && (forall k :: 0 <= k < |c.codes| ==> r.codes[k].highlights <= 1)
  {
  }
}

=== FILE: directive.dfy ===
/** The `=GUIDE:` directive: the loader looks for the first match of the
    multiline regular expression `^=GUIDE:\s*(.*)$`, deletes the matched text
    from the page's markdown with a string `replace`, and trims the captured
    path.

    The match is modelled with JavaScript's own line terminators (LF, CR,
    U+2028, U+2029): with the `m` flag `^` holds at the start of the text and
    after any of them, `.` matches anything but them, and `$` holds before
    them and at the end. `\s` is the blank set of `Strings.IsJsSpace`, which
    includes the line terminators, so the blank run after the colon may cross
    line breaks. */
module Directive {
  import opened Wrappers
  import opened Strings

  const Marker: string := "=GUIDE:"


  /** `^` in multiline mode holds at position `i` of `s`. */
  predicate LineStart(s: string, i: int) {
    i == 0 || (0 < i <= |s| && IsLineTerminator(s[i - 1]))
  }

  /** A match of the regular expression can begin at position `i`. */
  predicate DirectiveAt(s: string, i: int) {
    LineStart(s, i) && OccursAt(s, Marker, i)
  }

  /** End of the greedy `.*` that starts at `i`, where `$` then holds: the
      next line terminator, or the end of the text. */
  function LineEnd(s: string, i: nat): (j: nat)
    requires i <= |s|
    ensures i <= j <= |s|
    ensures forall k :: i <= k < j ==> !IsLineTerminator(s[k])
    ensures j == |s| || IsLineTerminator(s[j])
    decreases |s| - i
  {
    if i < |s| && !IsLineTerminator(s[i]) then LineEnd(s, i + 1) else i
  }

  /** A match: where it starts, the blanks the `\s*` consumed, and the
      captured group (`guideMatch[1]`). */
  datatype Match = Match(start: nat, blanks: string, capture: string) {
    /** The whole matched text, `guideMatch[0]`. */
    function Text(): string {
      Marker + blanks + capture
    }
  }

  /** The match that begins at position `i`: the greedy `\s*` is
      `SkipBlanks`, the greedy `.*` followed by `$` is `LineEnd`. Since
      `(.*)$` succeeds wherever it starts, `\s*` never has to give a
      character back. */
  function MatchAt(s: string, i: nat): (m: Match)
    requires DirectiveAt(s, i)
    ensures m.start == i
    ensures OccursAt(s, m.Text(), i)
    ensures AllSpace(m.blanks)
    ensures m.capture == [] || !IsJsSpace(m.capture[0])
    ensures forall k :: 0 <= k < |m.capture| ==> !IsLineTerminator(m.capture[k])
    ensures i + |m.Text()| == |s| || IsLineTerminator(s[i + |m.Text()|])
    ensures m.capture == [] ==> i + |m.Text()| == |s|
  {
    var b := SkipBlanks(s, i + |Marker|);
    var e := LineEnd(s, b);
    var m := Match(i, s[i + |Marker|..b], s[b..e]);
    assert s[i..e] == s[i..i + |Marker|] + s[i + |Marker|..b] + s[b..e];
    m
  }

  /** Where the first match begins, searching from position `i` on. */
  function FindFrom(s: string, i: nat): (r: Option<nat>)
    requires i <= |s|
    ensures r.None? ==> forall j :: i <= j ==> !DirectiveAt(s, j)
    ensures r.Some? ==> i <= r.value && DirectiveAt(s, r.value)
    ensures r.Some? ==> forall j :: i <= j < r.value ==> !DirectiveAt(s, j)
    decreases |s| - i
  {
    if DirectiveAt(s, i) then Some(i)
    else if i + |Marker| >= |s| then None
    else FindFrom(s, i + 1)
  }

  /** `mdText.match(/^=GUIDE:\s*(.*)$/m)`: the leftmost match, or none. */
  function FindDirective(s: string): (r: Option<Match>)
    ensures r.None? <==> forall j :: !DirectiveAt(s, j)
    ensures r.Some? ==> DirectiveAt(s, r.value.start) && r.value == MatchAt(s, r.value.start)
    ensures r.Some? ==> forall j :: 0 <= j < r.value.start ==> !DirectiveAt(s, j)
  {
    match FindFrom(s, 0)
    case None => None
    case Some(i) => Some(MatchAt(s, i))
  }

  /** What the loader takes from a page's markdown: the text to render and,
      when a directive was found, the path of the guide to fetch. */
  datatype Extraction = Extraction(content: string, guidePath: Option<string>)

  /** Lines 54-58 of the loader: find the directive, delete the first
      occurrence of the matched text, trim the captured path. */
  function Extract(md: string): (e: Extraction)
    ensures FindDirective(md).None? ==> e == Extraction(md, None)
    ensures FindDirective(md).Some? ==> e.guidePath == Some(Trim(FindDirective(md).value.capture))
    ensures FindDirective(md).Some? ==> |e.content| == |md| - |FindDirective(md).value.Text()|
  {
    match FindDirective(md)
    case None => Extraction(md, None)
    case Some(m) =>
      assert OccursAt(md, m.Text(), m.start);
      Extraction(ReplaceFirst(md, m.Text(), ""), Some(Trim(m.capture)))
  }

  /** With a directive, the content is the markdown with the FIRST occurrence
      `k` of the matched text deleted. That occurrence is never later than the
      match itself, but it can be earlier (see `EarlierOccurrence`). */
  lemma ExtractDeletesFirstOccurrence(md: string, m: Match, k: nat)
    requires FindDirective(md) == Some(m)
    requires OccursAt(md, m.Text(), k)
    requires forall j :: 0 <= j < k ==> !OccursAt(md, m.Text(), j)
    ensures k <= m.start
    ensures Extract(md).content == md[..k] + md[k + |m.Text()|..]
  {
    assert k <= m.start by {
      assert OccursAt(md, m.Text(), m.start);
    }
    var c := md[..k] + md[k + |m.Text()|..];
    assert ReplaceFirst(md, m.Text(), "") == c by {
      DeleteAt(md, m.Text(), k);
    }
    ExtractContent(md, m);
  }

  lemma ExtractContent(md: string, m: Match)
    requires FindDirective(md) == Some(m)
    ensures Extract(md).content == ReplaceFirst(md, m.Text(), "")
  {
  }

  /** When the matched text does not also occur earlier, what is deleted is
      the directive itself: the text before it is kept whole and the text
      after it follows directly. */
  lemma ExtractDeletesDirective(md: string, m: Match)
    requires FindDirective(md) == Some(m)
    requires forall j :: 0 <= j < m.start ==> !OccursAt(md, m.Text(), j)
    ensures Extract(md).content == md[..m.start] + md[m.start + |m.Text()|..]
  {
    ExtractDeletesFirstOccurrence(md, m, m.start);
  }

  /** Deleting the first occurrence of `pat`, found at `k`. */
  lemma DeleteAt(s: string, pat: string, k: nat)
    requires OccursAt(s, pat, k)
    requires forall j :: 0 <= j < k ==> !OccursAt(s, pat, j)
    ensures ReplaceFirst(s, pat, "") == s[..k] + s[k + |pat|..]
  {
    ReplaceFirstAt(s, pat, "", k);
    assert s[..k] + "" + s[k + |pat|..] == s[..k] + s[k + |pat|..];
  }

  /** The guide path is a single line with no blanks at either end. */
  lemma GuidePathShape(md: string)
    requires Extract(md).guidePath.Some?
    ensures var p := Extract(md).guidePath.value;
            && (forall k :: 0 <= k < |p| ==> !IsLineTerminator(p[k]))
            && (p == [] || (!IsJsSpace(p[0]) && !IsJsSpace(p[|p| - 1])))
  {
    var m := FindDirective(md).value;
    TrimOneLine(m.capture);
  }

  /** Trimming a single line leaves a single line. */
  lemma TrimOneLine(c: string)
    requires forall k :: 0 <= k < |c| ==> !IsLineTerminator(c[k])
    ensures forall k :: 0 <= k < |Trim(c)| ==> !IsLineTerminator(Trim(c)[k])
  {
    var p := Trim(c);
    var i :| && 0 <= i <= |c| - |p|
             && p == c[i..i + |p|]
             && AllSpace(c[..i])
             && AllSpace(c[i + |p|..]);
    forall k | 0 <= k < |p|
      ensures !IsLineTerminator(p[k])
    {
      assert p[k] == c[i + k];
    }
  }

  /** `SkipBlanks` is the one position that ends a maximal blank run. */
  lemma SkipBlanksIs(s: string, i: nat, j: nat)
    requires i <= j <= |s|
    requires forall k :: i <= k < j ==> IsJsSpace(s[k])
    requires j == |s| || !IsJsSpace(s[j])
    ensures SkipBlanks(s, i) == j
  {
  }

  /** `LineEnd` is the one position that ends a line. */
  lemma LineEndIs(s: string, i: nat, j: nat)
    requires i <= j <= |s|
    requires forall k :: i <= k < j ==> !IsLineTerminator(s[k])
    requires j == |s| || IsLineTerminator(s[j])
    ensures LineEnd(s, i) == j
  {
  }

  /** The match at a line start `i` whose marker is followed by `blanks`
      and then by the one-line `path`. When the path is empty the blank run
      would swallow a following line break, hence the text ends there. */
  lemma MatchAtIs(s: string, i: nat, blanks: string, path: string)
    requires LineStart(s, i)
    requires i + |Marker| + |blanks| + |path| <= |s|
    requires s[i..i + |Marker|] == Marker
    requires s[i + |Marker|..i + |Marker| + |blanks|] == blanks && AllSpace(blanks)
    requires s[i + |Marker| + |blanks|..i + |Marker| + |blanks| + |path|] == path
    requires path == [] || !IsJsSpace(path[0])
    requires forall k :: 0 <= k < |path| ==> !IsLineTerminator(path[k])
    requires var e := i + |Marker| + |blanks| + |path|;
             e == |s| || (path != [] && IsLineTerminator(s[e]))
    ensures DirectiveAt(s, i)
    ensures MatchAt(s, i) == Match(i, blanks, path)
  {
    var b := i + |Marker| + |blanks|;
    var e := b + |path|;
    assert forall k :: i + |Marker| <= k < b ==> s[k] == blanks[k - i - |Marker|];
    assert forall k :: b <= k < e ==> s[k] == path[k - b];
    SkipBlanksIs(s, i + |Marker|, b);
    LineEndIs(s, b, e);
  }

  /** A directive with none before it is the match. */
  lemma FindDirectiveIs(s: string, i: nat)
    requires DirectiveAt(s, i)
    requires forall j :: 0 <= j < i ==> !DirectiveAt(s, j)
    ensures FindDirective(s) == Some(MatchAt(s, i))
  {
    var r := FindDirective(s);
    assert r.Some?;
    assert r.value.start == i;
  }

  /** With a directive whose text first occurs at `k`, the loader keeps the
      text around that occurrence and fetches the trimmed capture. */
  lemma ExtractIs(md: string, m: Match, k: nat)
    requires FindDirective(md) == Some(m)
    requires OccursAt(md, m.Text(), k)
    requires forall j :: 0 <= j < k ==> !OccursAt(md, m.Text(), j)
    ensures Extract(md) == Extraction(md[..k] + md[k + |m.Text()|..], Some(Trim(m.capture)))
  {
    ExtractDeletesFirstOccurrence(md, m, k);
  }

  /** A markdown text that opens with a directive: `blanks` after the colon,
      then the one-line `path` the group captures, then the `rest` of the
      text, which starts on the next line. The whole first line goes, its
      line break stays, and the guide path is the trimmed capture. When the
      capture is empty the blank run would swallow the following line break,
      hence `rest` is empty then. */
  lemma FirstLineDirective(blanks: string, path: string, rest: string)
    requires AllSpace(blanks)
    requires path == [] || !IsJsSpace(path[0])
    requires forall k :: 0 <= k < |path| ==> !IsLineTerminator(path[k])
    requires rest == [] || IsLineTerminator(rest[0])
    requires path == [] ==> rest == []
    ensures Extract(Marker + blanks + path + rest) == Extraction(rest, Some(Trim(path)))
  {
    var t := Marker + blanks + path;
    var md := t + rest;
    var m := Match(0, blanks, path);
    FirstLineMatch(md, blanks, path, rest);
    assert md[..0] + md[|t|..] == rest;
    ExtractIs(md, m, 0);
  }

  lemma FirstLineMatch(md: string, blanks: string, path: string, rest: string)
    requires md == Marker + blanks + path + rest
    requires AllSpace(blanks)
    requires path == [] || !IsJsSpace(path[0])
    requires forall k :: 0 <= k < |path| ==> !IsLineTerminator(path[k])
    requires rest == [] || IsLineTerminator(rest[0])
    requires path == [] ==> rest == []
    ensures FindDirective(md) == Some(Match(0, blanks, path))
  {
    var t := Marker + blanks + path;
    assert md[..|t|] == t;
    MatchAtIs(md, 0, blanks, path);
    FindDirectiveIs(md, 0);
  }

  /** A page that opens with `=GUIDE: other.md` and has `Hello` on its next
      line: the directive line is removed, its line break stays, and the
      path is `other.md`. */
  lemma ExtractExample(md: string)
    requires md == "=GUIDE: other.md\nHello"
    ensures Extract(md) == Extraction("\nHello", Some("other.md"))
  {
    assert Marker + " " + "other.md" + "\nHello" == md;
    OneLine("other.md");
    FirstLineDirective(" ", "other.md", "\nHello");
    TrimUnchanged("other.md");
  }

  /** The blank run after the colon crosses line breaks: the path is taken
      from the next non-blank line, and every line up to the path is
      deleted. */
  lemma BlanksCrossLines(md: string)
    requires md == "=GUIDE:\nfoo"
    ensures Extract(md) == Extraction("", Some("foo"))
  {
    assert Marker + "\n" + "foo" + "" == md;
    OneLine("foo");
    FirstLineDirective("\n", "foo", "");
    TrimUnchanged("foo");
  }

  /** A text of letters, digits and dots holds no line terminator. */
  lemma OneLine(p: string)
    requires forall k :: 0 <= k < |p| ==> 'a' <= p[k] <= 'z' || '0' <= p[k] <= '9' || p[k] == '.'
    ensures forall k :: 0 <= k < |p| ==> !IsLineTerminator(p[k]) && !IsJsSpace(p[k])
  {
  }

  /** The matched text can occur before the match. Take a first line that
      does not open with the marker but contains a directive's text `t`,
      say `x=GUIDE: a`, followed by a second line that is exactly `t`. Only
      the second line matches, yet `replace` deletes the first occurrence of
      `t`, inside the first line: the directive line itself stays in the
      content. */
  lemma EarlierOccurrence(line1: string, blanks: string, path: string, k: nat)
    requires forall j :: 0 <= j < |line1| ==> !IsLineTerminator(line1[j])
    requires !OccursAt(line1, Marker, 0)
    requires AllSpace(blanks)
    requires path == [] || !IsJsSpace(path[0])
    requires forall j :: 0 <= j < |path| ==> !IsLineTerminator(path[j])
    requires OccursAt(line1, Marker + blanks + path, k)
    requires forall j :: 0 <= j < k ==> !OccursAt(line1, Marker + blanks + path, j)
    ensures var t := Marker + blanks + path;
            Extract(line1 + "\n" + t) == Extraction(line1[..k] + line1[k + |t|..] + "\n" + t, Some(Trim(path)))
  {
    var t := Marker + blanks + path;
    var md := line1 + "\n" + t;
    var kept := line1[..k] + line1[k + |t|..] + "\n" + t;
    assert SecondLineCase(line1, blanks, path, k);
    EarlierFacts(md, line1, blanks, path, k, kept);
    ExtractCut(md, Match(|line1| + 1, blanks, path), k, kept);
  }

  /** The hypotheses of `EarlierOccurrence`, bundled. */
  predicate SecondLineCase(line1: string, blanks: string, path: string, k: nat) {
    && SecondLineShape(line1, blanks, path)
    && OccursAt(line1, Marker + blanks + path, k)
    && (forall j :: 0 <= j < k ==> !OccursAt(line1, Marker + blanks + path, j))
  }

  /** `m` is the match of `md`, its text first occurs at `k`, and cutting
      that occurrence out leaves `kept`. */
  predicate CutAt(md: string, m: Match, k: nat, kept: string) {
    && FindDirective(md) == Some(m)
    && OccursAt(md, m.Text(), k)
    && (forall j :: 0 <= j < k ==> !OccursAt(md, m.Text(), j))
    && md[..k] + md[k + |m.Text()|..] == kept
  }

  /** What `ExtractCut` needs about such a text: the second line is the
      match, and the first occurrence of its text lies in the first line. */
  lemma EarlierFacts(md: string, line1: string, blanks: string, path: string, k: nat, kept: string)
    requires md == line1 + "\n" + (Marker + blanks + path)
    requires SecondLineCase(line1, blanks, path, k)
    requires kept == line1[..k] + line1[k + |Marker + blanks + path|..] + "\n" + (Marker + blanks + path)
    ensures CutAt(md, Match(|line1| + 1, blanks, path), k, kept)
  {
    SecondLineMatch(md, line1, blanks, path);
    CutEarlier(md, line1, Marker + blanks + path, k, kept);
  }

  /** `ExtractIs` with the kept text named. */
  lemma ExtractCut(md: string, m: Match, k: nat, kept: string)
    requires CutAt(md, m, k, kept)
    ensures Extract(md) == Extraction(kept, Some(Trim(m.capture)))
  {
    ExtractIs(md, m, k);
  }

  /** The first occurrence of `t` in `line1` is also its first occurrence
      in `line1` followed by a line holding `t`, and cutting it out there
      keeps the second line. */
  lemma CutEarlier(md: string, line1: string, t: string, k: nat, kept: string)
    requires md == line1 + "\n" + t
    requires OccursAt(line1, t, k)
    requires forall j :: 0 <= j < k ==> !OccursAt(line1, t, j)
    requires kept == line1[..k] + line1[k + |t|..] + "\n" + t
    ensures OccursAt(md, t, k)
    ensures forall j :: 0 <= j < k ==> !OccursAt(md, t, j)
    ensures md[..k] + md[k + |t|..] == kept
  {
    assert md[..|line1|] == line1;
    OccurrencesInPrefix(md, line1, t, k);
    CutInPrefix(line1, "\n" + t, k, |t|);
    assert line1 + ("\n" + t) == md;
  }

  /** Occurrences that lie within a prefix are the prefix's own. */
  lemma OccurrencesInPrefix(md: string, line1: string, t: string, k: nat)
    requires |line1| <= |md| && md[..|line1|] == line1
    requires OccursAt(line1, t, k)
    requires forall j :: 0 <= j < k ==> !OccursAt(line1, t, j)
    ensures OccursAt(md, t, k)
    ensures forall j :: 0 <= j < k ==> !OccursAt(md, t, j)
  {
    assert k + |t| <= |line1|;
    assert forall q :: 0 <= q < |line1| ==> md[q] == md[..|line1|][q];
    forall j | 0 <= j <= k
      ensures OccursAt(md, t, j) <==> OccursAt(line1, t, j)
    {
      assert md[j..j + |t|] == line1[j..j + |t|];
    }
  }

  /** Cutting `n` characters at `k` inside `a` leaves `b` untouched. */
  lemma CutInPrefix(a: string, b: string, k: nat, n: nat)
    requires k + n <= |a|
    ensures (a + b)[..k] + (a + b)[k + n..] == a[..k] + a[k + n..] + b
  {
    assert (a + b)[..k] == a[..k];
    assert (a + b)[k + n..] == a[k + n..] + b;
  }

  /** With a first line of any length that does not open with the marker,
      a directive line that ends the text on the second line is the match. */
  lemma SecondLineMatch(md: string, line1: string, blanks: string, path: string)
    requires md == line1 + "\n" + (Marker + blanks + path)
    requires SecondLineShape(line1, blanks, path)
    ensures FindDirective(md) == Some(Match(|line1| + 1, blanks, path))
  {
    SecondLineParts(md, line1, blanks, path);
    FindDirectiveIs(md, |line1| + 1);
  }

  /** A first line with no line terminator that does not open with the
      marker, and a directive's blanks and one-line path. */
  predicate SecondLineShape(line1: string, blanks: string, path: string) {
    && (forall j :: 0 <= j < |line1| ==> !IsLineTerminator(line1[j]))
    && !OccursAt(line1, Marker, 0)
    && AllSpace(blanks)
    && (path == [] || !IsJsSpace(path[0]))
    && (forall j :: 0 <= j < |path| ==> !IsLineTerminator(path[j]))
  }

  /** The second line holds a directive with the given parts, and the first
      holds none. */
  lemma SecondLineParts(md: string, line1: string, blanks: string, path: string)
    requires md == line1 + "\n" + (Marker + blanks + path)
    requires SecondLineShape(line1, blanks, path)
    ensures DirectiveAt(md, |line1| + 1)
    ensures MatchAt(md, |line1| + 1) == Match(|line1| + 1, blanks, path)
    ensures forall j :: 0 <= j < |line1| + 1 ==> !DirectiveAt(md, j)
  {
    var a := |line1| + 1;
    assert md[a..] == Marker + blanks + path && md[a - 1] == '\n' by {
      assert md == line1 + "\n" + (Marker + blanks + path);
    }
    MatchAtSuffix(md, a, blanks, path);
    FirstLineHasNone(md, line1, Marker + blanks + path);
  }

  /** The match at a line start `i` where the text from `i` on is a
      directive line: the marker, `blanks` and the one-line `path`. */
  lemma MatchAtSuffix(s: string, i: nat, blanks: string, path: string)
    requires LineStart(s, i) && i <= |s|
    requires s[i..] == Marker + blanks + path
    requires AllSpace(blanks)
    requires path == [] || !IsJsSpace(path[0])
    requires forall k :: 0 <= k < |path| ==> !IsLineTerminator(path[k])
    ensures DirectiveAt(s, i)
    ensures MatchAt(s, i) == Match(i, blanks, path)
  {
    SuffixParts(s, i, Marker, blanks, path);
    MatchAtIs(s, i, blanks, path);
  }

  /** The three consecutive slices of a suffix that is a concatenation. */
  lemma SuffixParts(s: string, i: nat, a: string, b: string, c: string)
    requires i <= |s| && s[i..] == a + b + c
    ensures s[i..i + |a|] == a
    ensures s[i + |a|..i + |a| + |b|] == b
    ensures s[i + |a| + |b|..i + |a| + |b| + |c|] == c
  {
    var u := a + b + c;
    assert forall k :: i <= k < |s| ==> s[k] == u[k - i];
    assert forall k :: 0 <= k < |a| ==> u[k] == a[k];
    assert forall k :: 0 <= k < |b| ==> u[|a| + k] == b[k];
    assert forall k :: 0 <= k < |c| ==> u[|a| + |b| + k] == c[k];
  }

  /** No directive starts anywhere on a first line that does not open with
      the marker, the position of its line break included. */
  lemma FirstLineHasNone(md: string, line1: string, t: string)
    requires md == line1 + "\n" + t
    requires forall j :: 0 <= j < |line1| ==> !IsLineTerminator(line1[j])
    requires !OccursAt(line1, Marker, 0)
    ensures forall j :: 0 <= j <= |line1| ==> !DirectiveAt(md, j)
  {
    assert md[..|line1|] == line1;
    if |Marker| <= |line1| {
      assert md[..|Marker|] == line1[..|Marker|];
    } else if |Marker| <= |md| {
      // The line break at `|line1|` falls inside the would-be marker.
      assert md[..|Marker|][|line1|] == '\n' != Marker[|line1|];
    }
    forall j | 0 <= j <= |line1|
      ensures !DirectiveAt(md, j)
    {
      if 0 < j {
        assert md[j - 1] == line1[j - 1];
      }
    }
  }
}

=== FILE: links.dfy ===
/** Post-processing of the anchors in a rendered panel. In the guide panel a
    link is external when its `href` starts with `http`; external links open
    in a new browsing context, every other link is turned into a `?page=`
    link to the single-page scheme. In the main content hrefs are never
    rewritten: external links only get the new-context target. */
module Links {
  import opened Wrappers
  import opened Strings
  import opened Pages

  /** An anchor element: its `href` and `target` attributes, `None` when
      absent. */
  datatype Anchor = Anchor(href: Option<string>, target: Option<string>)

  const Blank: string := "_blank"

  /** `a.getAttribute('href') || ''`. */
  function HrefOf(a: Anchor): (h: string)
    ensures a.href.Some? ==> h == a.href.value
    ensures a.href.None? ==> h == ""
  {
    a.href.GetOr("")
  }

  /** `href.startsWith('http')`: case-sensitive, and with no check that a
      scheme separator follows. */
  predicate IsExternal(href: string) {
    StartsWith(href, "http")
  }

  /** `href.replace(/^\.\/|^\.\.\//, '')`: the regular expression has no `g`
      flag and is anchored at the start, so at most ONE leading `./` or
      `../` goes. */
  function StripRelativePrefix(href: string): (r: string)
    ensures StartsWith(href, "./") ==> "./" + r == href
    ensures StartsWith(href, "../") ==> "../" + r == href
    ensures !StartsWith(href, "./") && !StartsWith(href, "../") ==> r == href
  {
    if StartsWith(href, "./") then
      assert href[..2][1] == '/';
      href[2..]
    else if StartsWith(href, "../") then href[3..]
    else href
  }

  /** Lines 62-69: one anchor of the guide panel. */
  function RewriteGuideAnchor(a: Anchor, enc: string -> string): (b: Anchor)
    ensures IsExternal(HrefOf(a)) ==> b.href == a.href && b.target == Some(Blank)
    ensures !IsExternal(HrefOf(a)) ==>
      b.href == Some("?page=" + enc(StripRelativePrefix(HrefOf(a)))) && b.target == a.target
  {
    var href := HrefOf(a);
    if !IsExternal(href) then a.(href := Some(PageQuery(StripRelativePrefix(href), enc)))
    else a.(target := Some(Blank))
  }

  /** Lines 77-80: one anchor of the main content. */
  function MarkMainAnchor(a: Anchor): (b: Anchor)
    ensures b.href == a.href
    ensures IsExternal(HrefOf(a)) ==> b.target == Some(Blank)
    ensures !IsExternal(HrefOf(a)) ==> b == a
  {
    if IsExternal(HrefOf(a)) then a.(target := Some(Blank)) else a
  }

  /** Every anchor of the guide panel, in document order. */
  function RewriteGuideAnchors(anchors: seq<Anchor>, enc: string -> string): (r: seq<Anchor>)
    ensures |r| == |anchors|
    ensures forall i :: 0 <= i < |r| ==> r[i] == RewriteGuideAnchor(anchors[i], enc)
  {
    if anchors == [] then []
    else [RewriteGuideAnchor(anchors[0], enc)] + RewriteGuideAnchors(anchors[1..], enc)
  }

  /** Every anchor of the main content, in document order. */
  function MarkMainAnchors(anchors: seq<Anchor>): (r: seq<Anchor>)
    ensures |r| == |anchors|
    ensures forall i :: 0 <= i < |r| ==> r[i] == MarkMainAnchor(anchors[i])
  {
    if anchors == [] then []
    else [MarkMainAnchor(anchors[0])] + MarkMainAnchors(anchors[1..])
  }

  /** Main-content processing never changes an href, marks exactly the
      external links, and a second pass changes nothing. */
  lemma MainAnchorsKeepHrefs(anchors: seq<Anchor>)
    ensures var r := MarkMainAnchors(anchors);
      && (forall i :: 0 <= i < |r| ==> r[i].href == anchors[i].href)
      && (forall i :: 0 <= i < |r| ==>
            (r[i].target == Some(Blank) <==> IsExternal(HrefOf(anchors[i])) || anchors[i].target == Some(Blank)))
      && MarkMainAnchors(r) == r
  {
    var r := MarkMainAnchors(anchors);
    var r2 := MarkMainAnchors(r);
    assert forall i :: 0 <= i < |r| ==> r2[i] == r[i];
  }

  /** In the guide panel an external link keeps its href, every other link
      ends up pointing at `?page=` plus the encoded stripped href, and a
      missing href is read as the empty one. */
  lemma GuideAnchorsRewritten(anchors: seq<Anchor>, enc: string -> string)
    ensures var r := RewriteGuideAnchors(anchors, enc);
      forall i :: 0 <= i < |r| ==>
        if IsExternal(HrefOf(anchors[i])) then
          r[i].href == anchors[i].href && r[i].target == Some(Blank)
        else
          r[i].href == Some("?page=" + enc(StripRelativePrefix(HrefOf(anchors[i]))))
          && r[i].target == anchors[i].target
  {
  }

  /** Only the first relative prefix is removed: `./../x` keeps `../`,
      `../../x` keeps one `../`, and `.//x` keeps the second slash. */
  lemma StripOnce()
    ensures StripRelativePrefix("./../x") == "../x"
    ensures StripRelativePrefix("../../x") == "../x"
    ensures StripRelativePrefix(".//x") == "/x"
    ensures StripRelativePrefix("x") == "x"
  {
    assert StartsWith("./../x", "./");
    assert StartsWith("../../x", "../");
    assert "../../x"[..2][1] != "./"[1];
    assert StartsWith(".//x", "./");
  }

  /** The `http` test is a plain, case-sensitive prefix test: `httpfoo` counts
      as external, while `HTTPS://x`, `//cdn/x` and `mailto:x` do not. */
  lemma ExternalIsPrefixOnly()
    ensures IsExternal("httpfoo")
    ensures IsExternal("https://example.com")
    ensures !IsExternal("HTTPS://x")
    ensures !IsExternal("//cdn/x")
    ensures !IsExternal("mailto:x")
  {
    assert "httpfoo"[..4] == "http";
    assert "https://example.com"[..4] == "http";
    assert "HTTPS://x"[..4][0] != "http"[0];
    assert "//cdn/x"[..4][0] != "http"[0];
    assert "mailto:x"[..4][0] != "http"[0];
  }

  /** A relative link `./other` becomes `?page=other` (written through
      `enc`), and `https://example.com` keeps its href and opens in a new
      context. */
  lemma GuideLinkExamples(enc: string -> string)
    ensures RewriteGuideAnchor(Anchor(Some("./other"), None), enc)
              == Anchor(Some("?page=" + enc("other")), None)
    ensures RewriteGuideAnchor(Anchor(Some("https://example.com"), None), enc)
              == Anchor(Some("https://example.com"), Some(Blank))
    ensures RewriteGuideAnchor(Anchor(None, None), enc) == Anchor(Some("?page=" + enc("")), None)
  {
    assert StartsWith("./other", "./") && "./other"[2..] == "other";
    assert "./other"[..4][0] != "http"[0];
    ExternalIsPrefixOnly();
    assert !IsExternal("");
    assert StripRelativePrefix("") == "";
  }
}

=== FILE: loader.dfy ===
/** `loadPage` as a pure function of the page name and of what fetching a
    path yields. The page's markdown is fetched from `pages/<name>.md`; a
    failed fetch AND an empty text both count as "not found", because the
    loader tests `!mdText`. Otherwise the `=GUIDE:` directive decides the
    guide panel: no directive clears it, a directive whose guide fetch gives
    a non-empty text renders that text, and a directive whose guide fetch
    fails or is empty leaves the panel as it was. Rendering markdown to HTML
    is left to an external library and is not modelled: the outcome carries
    the markdown that would be rendered. */
module Loader {
  import opened Wrappers
  import opened Strings
  import opened Directive

  /** The guide panel after a load. */
  datatype GuideState = Cleared | Rendered(markdown: string) | Untouched

  datatype LoadOutcome =
    | NotFound(page: string)
    | Loaded(content: string, guide: GuideState)

  /** JavaScript truthiness of a fetched text: present and not empty. */
  predicate Truthy(t: Option<string>) {
    t.Some? && t.value != ""
  }

  /** Where a page's markdown is fetched from. */
  function MarkdownPath(page: string): (p: string)
    ensures StartsWith(p, "pages/")
    ensures |p| == |page| + 9 && p[6..6 + |page|] == page && p[6 + |page|..] == ".md"
  {
    "pages/" + page + ".md"
  }

  /** The message shown in the content panel for a missing page. The page
      name is inserted as it is, without HTML escaping. */
  function NotFoundHtml(page: string): (h: string)
    ensures OccursAt(h, page, 20)
    ensures OccursAt(h, "/" + MarkdownPath(page), 67 + |page|)
  {
    var h := "<h3>Page not found: " + page + "</h3>\n        <p class=\"muted\">Make sure <code>/"
             + MarkdownPath(page) + "</code> exists in your repo.</p>";
    assert h[20..20 + |page|] == page;
    assert h[67 + |page|..67 + |page| + 1 + |MarkdownPath(page)|] == "/" + MarkdownPath(page);
    h
  }

  /** `loadPage(page)`, with `fetch` standing for `loadMarkdown`: `None` is
      its `null`. */
  function LoadPage(page: string, fetch: string -> Option<string>): (o: LoadOutcome)
    ensures o.NotFound? <==> !Truthy(fetch(MarkdownPath(page)))
    ensures o.NotFound? ==> o.page == page
    ensures o.Loaded? ==> o.content == Extract(fetch(MarkdownPath(page)).value).content
  {
    var md := fetch(MarkdownPath(page));
    if !Truthy(md) then NotFound(page)
    else
      var e := Extract(md.value);
      match e.guidePath
      case None => Loaded(e.content, Cleared)
      case Some(path) =>
        var guide := fetch(path);
        Loaded(e.content, if Truthy(guide) then Rendered(guide.value) else Untouched)
  }

  /** The guide panel after a load: a missing page clears it too. */
  function GuideAfter(o: LoadOutcome): GuideState {
    match o
    case NotFound(_) => Cleared
    case Loaded(_, g) => g
  }

  /** The guide panel is cleared exactly when the page is missing or has no
      directive; it is rendered exactly when there is a directive and the
      guide text is non-empty; it is left untouched exactly when there is a
      directive and the guide fetch fails or gives an empty text. */
  lemma GuidePanelCases(page: string, fetch: string -> Option<string>)
    ensures var md := fetch(MarkdownPath(page));
            var g := GuideAfter(LoadPage(page, fetch));
      && (g == Cleared <==> !Truthy(md) || FindDirective(md.value).None?)
      && (g.Rendered? <==>
            Truthy(md) && FindDirective(md.value).Some?
            && Truthy(fetch(Extract(md.value).guidePath.value)))
      && (g.Rendered? ==> g.markdown == fetch(Extract(md.value).guidePath.value).value && g.markdown != "")
      && (g == Untouched <==>
            Truthy(md) && FindDirective(md.value).Some?
            && !Truthy(fetch(Extract(md.value).guidePath.value)))
  {
  }

  /** Without a directive the whole fetched text is rendered, unchanged. */
  lemma NoDirectiveKeepsText(page: string, fetch: string -> Option<string>)
    requires Truthy(fetch(MarkdownPath(page)))
    requires FindDirective(fetch(MarkdownPath(page)).value).None?
    ensures LoadPage(page, fetch) == Loaded(fetch(MarkdownPath(page)).value, Cleared)
  {
  }

  /** An empty page counts as missing, like a failed fetch. */
  lemma EmptyPageIsNotFound(page: string, fetch: string -> Option<string>)
    requires fetch(MarkdownPath(page)) == Some("")
    ensures LoadPage(page, fetch) == NotFound(page)
  {
  }

  /** A page that opens with `=GUIDE: other.md` and has `Hello` on its next
      line, where `other.md` holds `World`: the content panel gets the rest
      of the text and the guide panel gets `World`. */
  lemma LoadExample(page: string, fetch: string -> Option<string>)
    requires fetch(MarkdownPath(page)) == Some("=GUIDE: other.md\nHello")
    requires fetch("other.md") == Some("World")
    ensures LoadPage(page, fetch) == Loaded("\nHello", Rendered("World"))
  {
    ExtractExample("=GUIDE: other.md\nHello");
  }

  /** A page whose fetch fails is reported by name, with its expected path,
      and the guide panel is cleared. */
  lemma MissingPage(page: string, fetch: string -> Option<string>)
    requires fetch(MarkdownPath(page)).None?
    ensures LoadPage(page, fetch) == NotFound(page)
    ensures GuideAfter(LoadPage(page, fetch)) == Cleared
    ensures Contains(NotFoundHtml(page), page)
    ensures Contains(NotFoundHtml(page), MarkdownPath(page))
  {
    var h := NotFoundHtml(page);
    assert OccursAt(h, page, 20);
    var q := "/" + MarkdownPath(page);
    var i := 67 + |page|;
    assert OccursAt(h, q, i);
    assert h[i + 1..i + 1 + |MarkdownPath(page)|] == q[1..];
    assert OccursAt(h, MarkdownPath(page), i + 1);
  }
}

=== FILE: pages.dfy ===
/** Page selection and prev/next navigation: which page the `?page` query
    parameter names, where it sits in the fixed page list, and which page the
    previous and next buttons go to. */
module Pages {
  import opened Wrappers

  /** The known pages, in navigation order. */
  const KnownPages: seq<string> := ["index", "about", "contact"]

  /** Number of known pages. */
  const N: nat := |KnownPages|

  /** The page shown when the query names none. */
  const DefaultPage: string := "index"

  /** `u.searchParams.get('page') || 'index'`: `param` is what the browser's
      query parsing returned for the key `page` (`None` when absent). A missing
      AND an empty value both fall back to the default page; any other value,
      known or not, is used as it is. */
  function PageParam(param: Option<string>): (p: string)
    ensures param.Some? && param.value != "" ==> p == param.value
    ensures param.None? || param.value == "" ==> p == DefaultPage
    ensures p != ""
  {
    if param.Some? && param.value != "" then param.value else DefaultPage
  }

  /** `xs.indexOf(x)` on an array, with JavaScript's -1 for "absent". */
  function IndexIn(xs: seq<string>, x: string): (i: int)
    ensures -1 <= i < |xs|
    ensures i == -1 <==> x !in xs
    ensures i >= 0 ==> xs[i] == x && forall j :: 0 <= j < i ==> xs[j] != x
  {
    if xs == [] then -1
    else if xs[0] == x then 0
    else
      var i := IndexIn(xs[1..], x);
      if i == -1 then -1 else i + 1
  }

  /** `currentIndex()`: the position of the requested page in the known list,
      or 0 (the default page's position) when it is not a known page. */
  function CurrentIndex(param: Option<string>): (i: nat)
    ensures i < N
    ensures PageParam(param) in KnownPages ==> KnownPages[i] == PageParam(param)
    ensures PageParam(param) !in KnownPages ==> i == 0
  {
    var i := IndexIn(KnownPages, PageParam(param));
    if i == -1 then 0 else i
  }

  /** Index reached by the next button: one step forward, wrapping to the start. */
  function Next(i: nat): (j: nat)
    requires i < N
    ensures j < N
    ensures i < N - 1 ==> j == i + 1
    ensures i == N - 1 ==> j == 0
  {
    (i + 1) % N
  }

  /** Index reached by the previous button: one step back, wrapping to the end.
      `N` is added before `%` so that the dividend is never negative. */
  function Prev(i: nat): (j: nat)
    requires i < N
    ensures j < N
    ensures i > 0 ==> j == i - 1
    ensures i == 0 ==> j == N - 1
  {
    (i - 1 + N) % N
  }

  /** Name of the page the next button navigates to: once there, the
      navigation index is one step further. */
  function NextPage(param: Option<string>): (p: string)
    ensures p in KnownPages
    ensures CurrentIndex(Some(p)) == Next(CurrentIndex(param))
  {
    var j := Next(CurrentIndex(param));
    CurrentIndexOfKnown(j);
    KnownPages[j]
  }

  /** Name of the page the previous button navigates to: once there, the
      navigation index is one step back. */
  function PrevPage(param: Option<string>): (p: string)
    ensures p in KnownPages
    ensures CurrentIndex(Some(p)) == Prev(CurrentIndex(param))
  {
    var j := Prev(CurrentIndex(param));
    CurrentIndexOfKnown(j);
    KnownPages[j]
  }

  /** The query string that navigates to `page`: `?page=` followed by the
      page name as `encodeURIComponent` (the parameter `enc`) writes it. */
  function PageQuery(page: string, enc: string -> string): (q: string)
    ensures |q| == 6 + |enc(page)|
    ensures q[..6] == "?page=" && q[6..] == enc(page)
  {
    "?page=" + enc(page)
  }

  /** The known pages are pairwise distinct, so a name determines its index. */
  lemma KnownPagesDistinct()
    ensures forall i, j :: 0 <= i < j < N ==> KnownPages[i] != KnownPages[j]
  {
  }

  /** Previous undoes next and next undoes previous. */
  lemma PrevNextInverse(i: nat)
    requires i < N
    ensures Prev(Next(i)) == i
    ensures Next(Prev(i)) == i
  {
  }

  /** `k` presses of the next button, starting at index `i`. */
  function NextIter(i: nat, k: nat): (j: nat)
    requires i < N
    ensures j < N
  {
    if k == 0 then i else Next(NextIter(i, k - 1))
  }

  /** `k` presses of next move `k` places forward modulo the list length. */
  lemma {:induction false} NextIterIsShift(i: nat, k: nat)
    requires i < N
    ensures NextIter(i, k) == (i + k) % N
  {
    if k > 0 {
      NextIterIsShift(i, k - 1);
      ModStep(i + k - 1);
    }
  }

  lemma ModStep(x: nat)
    ensures ((x % N) + 1) % N == (x + 1) % N
  {
  }

  /** Pressing next once per known page comes back to the starting page. */
  lemma NextCycle(i: nat)
    requires i < N
    ensures NextIter(i, N) == i
  {
    NextIterIsShift(i, N);
  }

  /** Navigating to the next page and then pressing previous there lands on
      the page the first press started from (an unknown page counts as the
      default one, at index 0). */
  lemma NextThenPrevReturns(param: Option<string>)
    ensures PrevPage(Some(NextPage(param))) == KnownPages[CurrentIndex(param)]
    ensures NextPage(Some(PrevPage(param))) == KnownPages[CurrentIndex(param)]
  {
    var i := CurrentIndex(param);
    CurrentIndexOfKnown(Next(i));
    CurrentIndexOfKnown(Prev(i));
    PrevNextInverse(i);
  }

  /** Each known page is found at its own position. */
  lemma CurrentIndexOfKnown(j: nat)
    requires j < N
    ensures CurrentIndex(Some(KnownPages[j])) == j
  {
    KnownPagesDistinct();
  }

  /** An absent, empty or unknown page parameter all put the navigation at the
      first known page. */
  lemma UnknownPageIsFirst(param: Option<string>)
    requires param.None? || param.value == "" || param.value !in KnownPages
    ensures CurrentIndex(param) == 0
    ensures NextPage(param) == "about" && PrevPage(param) == "contact"
  {
  }
}

=== FILE: strings.dfy ===
/** The few JavaScript string primitives the page loader relies on:
    `startsWith`, `indexOf`, `replace` with a string pattern, and `trim`. */
module Strings {
  import opened Wrappers

  /** `s.startsWith(prefix)`. */
  predicate StartsWith(s: string, prefix: string) {
    |prefix| <= |s| && s[..|prefix|] == prefix
  }

  /** `pat` occurs in `s` starting at position `k`. */
  predicate OccursAt(s: string, pat: string, k: int) {
    0 <= k && k + |pat| <= |s| && s[k..k + |pat|] == pat
  }

  predicate Contains(s: string, pat: string) {
    exists k | 0 <= k <= |s| :: OccursAt(s, pat, k)
  }

  /** Search for `pat` starting at position `i`. */
  function IndexFrom(s: string, pat: string, i: nat): (r: Option<nat>)
    ensures r.Some? ==> i <= r.value && OccursAt(s, pat, r.value)
    ensures r.Some? ==> forall j :: i <= j < r.value ==> !OccursAt(s, pat, j)
    ensures r.None? ==> forall j :: i <= j ==> !OccursAt(s, pat, j)
    decreases |s| - i
  {
    if i + |pat| > |s| then None
    else if s[i..i + |pat|] == pat then Some(i)
    else IndexFrom(s, pat, i + 1)
  }

  /** `s.indexOf(pat)`, with `None` for JavaScript's -1: the first occurrence. */
  function IndexOf(s: string, pat: string): (r: Option<nat>)
    ensures r.Some? <==> Contains(s, pat)
    ensures r.Some? ==> OccursAt(s, pat, r.value)
    ensures r.Some? ==> forall j :: 0 <= j < r.value ==> !OccursAt(s, pat, j)
  {
    var r := IndexFrom(s, pat, 0);
    assert r.Some? ==> OccursAt(s, pat, r.value);
    r
  }

  /** `s.replace(pat, rep)` where `pat` is a string (not a regular expression)
      and `rep` holds no `$` pattern: only the FIRST occurrence of `pat` is
      replaced, and nothing happens when there is none. */
  function ReplaceFirst(s: string, pat: string, rep: string): (r: string)
    ensures !Contains(s, pat) ==> r == s
    ensures Contains(s, pat) ==> |r| == |s| - |pat| + |rep|
  {
    match IndexOf(s, pat)
    case None => s
    case Some(k) => s[..k] + rep + s[k + |pat|..]
  }

  /** When `k` is the first place `pat` occurs, `replace` rewrites exactly
      that occurrence and leaves the text around it as it was. */
  lemma ReplaceFirstAt(s: string, pat: string, rep: string, k: nat)
    requires OccursAt(s, pat, k)
    requires forall j :: 0 <= j < k ==> !OccursAt(s, pat, j)
    ensures ReplaceFirst(s, pat, rep) == s[..k] + rep + s[k + |pat|..]
  {
    var i := IndexOf(s, pat);
    assert i.Some?;
    assert !(i.value < k) && !(k < i.value);
  }

  /** The characters that `\s` in a regular expression and `String.prototype.trim`
      treat as blank: WhiteSpace and LineTerminator of ECMA-262 (sections 12.2
      and 12.3), i.e. TAB, VT, FF, ZWNBSP, the Unicode space separators, LF, CR,
      LINE SEPARATOR and PARAGRAPH SEPARATOR. */
  predicate IsJsSpace(c: char) {
    || c == '\t' || c == '\U{000B}' || c == '\U{000C}' || c == ' ' || c == '\U{00A0}'
    || c == '\U{FEFF}' || c == '\U{1680}' || ('\U{2000}' <= c <= '\U{200A}')
    || c == '\U{202F}' || c == '\U{205F}' || c == '\U{3000}'
    || IsLineTerminator(c)
  }

  /** The LineTerminator characters of ECMA-262 (section 12.3): LF, CR,
      LINE SEPARATOR and PARAGRAPH SEPARATOR. */
  predicate IsLineTerminator(c: char) {
    c == '\n' || c == '\r' || c == '\U{2028}' || c == '\U{2029}'
  }

  predicate AllSpace(s: string) {
    forall k :: 0 <= k < |s| ==> IsJsSpace(s[k])
  }

  /** End of the run of blanks that starts at position `i`. */
  function SkipBlanks(s: string, i: nat): (j: nat)
    requires i <= |s|
    ensures i <= j <= |s|
    ensures forall k :: i <= k < j ==> IsJsSpace(s[k])
    ensures j == |s| || !IsJsSpace(s[j])
    decreases |s| - i
  {
    if i < |s| && IsJsSpace(s[i]) then SkipBlanks(s, i + 1) else i
  }

  /** Start of the run of blanks that ends at position `j`, not going below `lo`. */
  function SkipBlanksBack(s: string, lo: nat, j: nat): (i: nat)
    requires lo <= j <= |s|
    ensures lo <= i <= j
    ensures forall k :: i <= k < j ==> IsJsSpace(s[k])
    ensures i == lo || !IsJsSpace(s[i - 1])
    decreases j
  {
    if lo < j && IsJsSpace(s[j - 1]) then SkipBlanksBack(s, lo, j - 1) else j
  }

  /** `s.trim()`: the slice of `s` left after cutting blanks from both ends. */
  function Trim(s: string): (r: string)
    ensures exists i :: && 0 <= i <= |s| - |r|
                        && r == s[i..i + |r|]
                        && AllSpace(s[..i])
                        && AllSpace(s[i + |r|..])
    ensures r == [] || (!IsJsSpace(r[0]) && !IsJsSpace(r[|r| - 1]))
  {
    var a := SkipBlanks(s, 0);
    var b := SkipBlanksBack(s, a, |s|);
    assert AllSpace(s[..a]) && AllSpace(s[b..]);
    s[a..b]
  }

  /** Trimming is idempotent. */
  lemma TrimIdempotent(s: string)
    ensures Trim(Trim(s)) == Trim(s)
  {
    var r := Trim(s);
    TrimUnchanged(r);
  }

  /** A string with no blank at either end is left as it is by `trim`. */
  lemma TrimUnchanged(s: string)
    requires s == [] || (!IsJsSpace(s[0]) && !IsJsSpace(s[|s| - 1]))
    ensures Trim(s) == s
  {
  }
}

=== FILE: wrappers.dfy ===
/** The optional value used for the browser's nullable results: a missing
    query parameter, a missing `href` attribute, a failed fetch. */
module Wrappers {

  datatype Option<+T> = None | Some(value: T) {

    /** The wrapped value, or `default` when there is none (JavaScript's `x || d`
        for values that are never falsy). */
    function GetOr(default: T): (r: T)
      ensures Some? ==> r == value
      ensures None? ==> r == default
    {
      match this
      case Some(v) => v
      case None => default
    }
  }
}
